=== FILE: README.md ===
# H.264 decoded picture buffer, modelled in Dafny

This project models the decoded picture buffer (DPB) of the VDPAU H.264
decoder in `sys/vdpau/h264/gsth264dpb.c`. The DPB is a bounded store of
decoded frames. It keeps frames that later pictures still need as
references. It also keeps frames that have not yet been handed to the output
sink in display order. It releases frames by three rules:

- **bumping** outputs the pending frame with the smallest picture order
  count (POC). This is a simplified form of the bumping process in Annex
  C.4.5 of ITU-T H.264.
- **admission** (`add`) makes room for a new frame.
- **sliding-window marking** retires the oldest short-term reference. This
  is a simplified form of section 8.2.5.3 of ITU-T H.264.

The store is an immutable value `Dpb(frames, maxFrames)`. `n_frames` is
`|frames|`. Every store operation is a pure function that returns the new store.
Operations that output frames also return the list of frames handed to the
output sink, in call order. Each logged frame is recorded as it was when the
sink received it. The C loops are recursive functions:

- the two selection scans (`FirstPending`/`ScanOldest`, and
  `FirstShortTerm`/`ScanSliding`), which terminate because the number of
  slots still to scan decreases;
- the bump loops (`Drain`, `MakeRoom`), which terminate because every
  successful bump lowers the number of pending frames;
- the fixed-count loop of `set_property` (`BumpTimes`), which terminates
  because the number of attempts left decreases.

Modules: `Frames` (the frame record and the views of a frame sequence),
`Store` (slot removal and output), `Bumping` (bump, drain, flush),
`Admission` (add), `Sliding` (mark_sliding), `Config` (init and the
`num-ref-frames` property), `Export` (fill_reference_frames), and
`Scenarios` (concrete runs).

Two independent reference definitions state what a drain does. `Due(fs, t)`
lists the pending frames below `t`. `Settle(fs, t)` gives the store after
each of those frames has been output: a reference stays with its flag
cleared, any other frame leaves. `Drain` is proved to produce the store
`Settle` describes. A third definition, `ByPoc(s)`, is a stable selection
sort by POC: it repeatedly takes the first frame of minimal POC, as the
bump scan does. `Drain` outputs exactly `ByPoc(Due(frames, t))`, so frames
with equal POCs leave in slot order. The partial loops (`MakeRoom`,
`BumpTimes`) output a prefix of that same list.

In these places the model keeps the code's behaviour, including where it
is surprising:

- `set_property` makes exactly `n_old - v` bump attempts (:241-242). It does
  not bump until the store fits the new capacity, so the store can stay
  above it.
- A reference `add` that fails has already output frames (:139-143). The
  failed result carries the changed store and those outputs. Operations are
  not atomic.
- `bump` also fails when the oldest pending frame has POC `G_MAXUINT`,
  because the comparison is a strict `<` (:119). Such a frame is never
  output, and `flush` drops it. So a failed reference `add` means "nothing
  pending below `G_MAXUINT`", not "nothing pending".
- `add` compares `n_frames == max_frames` (:139, :149). It does not test
  `>=`. The capacity invariant is proved only for stores already within
  capacity (`Admission.AddKeepsCapacity`). `Scenarios.ShrinkThenAddExceedsCapacity`
  shows a store left above capacity by a failed shrink that accepts one more
  frame.
- Output is in non-decreasing POC order within one call. Across calls it
  depends on the POCs the caller supplies, so no ordering across calls is
  claimed.
- `mark_sliding` leaves `mark_idx` uninitialised when no short-term
  reference exists (:186-199). The model treats that case as an explicit
  no-op.

## Model

| member | source | states |
|---|---|---|
| `Store.Remove` | sys/vdpau/h264/gsth264dpb.c:69-81 | removal shortens the store by one; frames before the slot keep their place, frames after it move down one place; the multiset of frames loses exactly the removed one |
| `Store.Output` | sys/vdpau/h264/gsth264dpb.c:83-94 | the output frame's flag is cleared; it stays in its slot with every other frame unchanged if it is a reference, and is removed otherwise |
| `Store.OutputLedger` | sys/vdpau/h264/gsth264dpb.c:86-93 | outputting a pending frame moves exactly that frame from the store's pending frames to the sink, for any POC threshold |
| `Store.OutputSettles` | sys/vdpau/h264/gsth264dpb.c:90-93 | outputting a frame that is due under a threshold agrees with the frame-by-frame description `Settle` of the store under that threshold |
| `Bumping.FirstPending` | sys/vdpau/h264/gsth264dpb.c:104-110 | finds the first slot awaiting output, or reports that none awaits output |
| `Bumping.ScanOldest` | sys/vdpau/h264/gsth264dpb.c:112-117 | a strict `<` scan from the first pending slot ends on the pending frame of minimal POC, the lowest slot among equal POCs |
| `Bumping.OldestPending` | sys/vdpau/h264/gsth264dpb.c:103-117 | the selected slot exists iff some frame awaits output, and it is the minimal-POC pending frame with the lowest slot on ties |
| `Bumping.OldestPendingUnique` | sys/vdpau/h264/gsth264dpb.c:112-117 | the selection rule determines a single slot |
| `Bumping.Bump` | sys/vdpau/h264/gsth264dpb.c:96-126 | bump fails when no frame is pending; otherwise it succeeds iff the selected frame's POC is strictly below the threshold, outputs that frame and no other, and on failure leaves the store unchanged and outputs nothing |
| `Bumping.BumpLedger` | sys/vdpau/h264/gsth264dpb.c:119-122 | a successful bump outputs one pending frame; the pending frames lose exactly that frame and their count drops by one; the store never grows |
| `Frames.ByPocSorts` | sys/vdpau/h264/gsth264dpb.c:112-122 | the stable POC order that repeated bumping follows is sorted by POC and holds exactly the frames it orders |
| `Bumping.BumpOrder` | sys/vdpau/h264/gsth264dpb.c:112-122 | the frame a successful bump outputs is the head of the stable POC order of the frames due under its threshold, and the rest of that order is the stable POC order of the frames still due afterwards |
| `Bumping.BumpMonotone` | sys/vdpau/h264/gsth264dpb.c:112-122 | every frame still pending after a bump has a POC at least that of the frame just output |
| `Bumping.BumpFailure` | sys/vdpau/h264/gsth264dpb.c:112-125 | a failed bump under a threshold means no pending frame lies below it |
| `Bumping.Drain` | sys/vdpau/h264/gsth264dpb.c:171 | repeating bump under `t` until it fails outputs exactly the pending frames below `t` in stable POC order (`ByPoc`: equal POCs in slot order); it leaves the store `Settle` describes, with nothing pending below `t` |
| `Bumping.DrainBelow` | sys/vdpau/h264/gsth264dpb.c:150 | every frame a drain outputs has a POC strictly below the threshold |
| `Bumping.Flush` | sys/vdpau/h264/gsth264dpb.c:162-179 | flush always ends with an empty store of the same capacity; without output it outputs nothing; with output it outputs exactly the pending frames below `G_MAXUINT` in stable POC order (`ByPoc`) |
| `Admission.MakeRoom` | sys/vdpau/h264/gsth264dpb.c:139-144 | unless the store is exactly full nothing happens; otherwise bumps run until a slot frees and stop there: success leaves exactly one slot free, and every output frame is a reference except the last of a successful run; failure means the store is still full with nothing pending below `G_MAXUINT`; the outputs are a prefix of the pending frames below `G_MAXUINT` in stable POC order (`ByPoc`), so a tie goes to the lower slot, and no output is later than any frame left pending; the store never grows, and it settles under `G_MAXUINT` exactly as before, so references and frames no longer pending are kept |
| `Admission.Add` | sys/vdpau/h264/gsth264dpb.c:128-160 | a successful reference add appends the frame after the room-making bumps; a failed one does not insert it. A non-reference add always succeeds: into a full store it outputs the pending frames below its POC, then the frame itself, and never inserts it; with a free slot it appends it and outputs nothing. Outputs are always sorted by POC |
| `Admission.AddKeepsCapacity` | sys/vdpau/h264/gsth264dpb.c:137-157 | a store within its capacity is still within it after `add` |
| `Admission.AddFailsOnlyWhenSaturated` | sys/vdpau/h264/gsth264dpb.c:139-143 | only a reference add fails, and only when the store stays exactly full with nothing pending below `G_MAXUINT` |
| `Sliding.FirstShortTerm` | sys/vdpau/h264/gsth264dpb.c:192-197 | finds the first short-term reference, or reports that none exists |
| `Sliding.ScanSliding` | sys/vdpau/h264/gsth264dpb.c:199-204 | the strict `<` scan ends on the short-term reference of minimal `frame_num`, the lowest slot on ties |
| `Sliding.OldestShortTerm` | sys/vdpau/h264/gsth264dpb.c:186-204 | a slot is selected iff a short-term reference exists, and it is the minimal-`frame_num` one with the lowest slot on ties |
| `Sliding.Retire` | sys/vdpau/h264/gsth264dpb.c:206-208 | the selected frame loses its reference flag; it stays in place if still pending and is removed otherwise; every other frame is unchanged |
| `Sliding.MarkSliding` | sys/vdpau/h264/gsth264dpb.c:181-210 | a no-op unless the store is exactly full and holds a short-term reference; otherwise it retires the short-term reference selected by minimal `frame_num` |
| `Sliding.MarkSlidingRetiresOne` | sys/vdpau/h264/gsth264dpb.c:199-209 | when the window slides, the count of short-term references drops by exactly one and the long-term frames stay as they were, in order |
| `Sliding.MarkSlidingKeepsPending` | sys/vdpau/h264/gsth264dpb.c:206-208 | sliding never changes which frames await output |
| `Config.Init` | sys/vdpau/h264/gsth264dpb.c:261-266 | a new store is empty with capacity 16, the property's default |
| `Config.BumpTimes` | sys/vdpau/h264/gsth264dpb.c:241-242 | `k` unconditional bump attempts output min(`k`, number of pending frames below `G_MAXUINT`) frames, and they are that many frames from the front of the pending frames below `G_MAXUINT` in stable POC order (`ByPoc`), so ties go to the lower slot; the store never grows and settles under `G_MAXUINT` exactly as before |
| `Config.SetNumRefFrames` | sys/vdpau/h264/gsth264dpb.c:236-245 | the capacity becomes the new value; nothing else changes when the store already fits; otherwise min(`n_old - v`, number of pending frames below `G_MAXUINT`) frames are output, and they are that many frames from the front of the pending frames below `G_MAXUINT` in stable POC order (`ByPoc`); the store never grows, settles under `G_MAXUINT` exactly as before, and may stay above the new capacity |
| `Config.GetAfterSet` | sys/vdpau/h264/gsth264dpb.c:220-221 | reading `num-ref-frames` through `GetNumRefFrames` returns the value last set |
| `Export.FillReferenceFrames` | sys/vdpau/h264/gsth264dpb.c:39-67 | slot `i` below `n_frames` describes stored frame `i`: its surface, long-term flag, reference flag as both field flags, POC as both field order counts, and `frame_num`; every later slot up to 15 gets the invalid surface and both reference flags false, its other fields untouched |
| `Scenarios.SlidingRetiresSmallestFrameNum` | sys/vdpau/h264/gsth264dpb.c:192-206 | in a full store with short-term `frame_num`s 5, 2 and 9, only the frame numbered 2 loses its reference flag |
| `Scenarios.BumpTieBreaksOnSlot` | sys/vdpau/h264/gsth264dpb.c:113-116 | with pending POC-7 frames in slots 0 and 3, a bump under 8 outputs slot 0 |
| `Scenarios.NonReferenceIntoFullStore` | sys/vdpau/h264/gsth264dpb.c:148-153 | capacity 2 holding references A (POC 0) and B (POC 2): adding non-reference C (POC 1) outputs A and then C, and leaves A (no longer pending) and B in the store |
| `Scenarios.TwoReferencesFillStore` | sys/vdpau/h264/gsth264dpb.c:137-145 | two reference adds into an empty store of capacity 2 fill it in order |
| `Scenarios.ShrinkThenAddExceedsCapacity` | sys/vdpau/h264/gsth264dpb.c:139-145 | after a shrink that cannot bump, a reference add still succeeds and leaves three frames in a store of capacity 1 |
| `Scenarios.ReferencesBlockRoom` | sys/vdpau/h264/gsth264dpb.c:139-143 | capacity 2 holding pending references with POCs 5 and 1: making room outputs the POC-1 frame, then the POC-5 frame, keeps both with their flags cleared, and fails |
| `Scenarios.NonReferenceFreesSlot` | sys/vdpau/h264/gsth264dpb.c:139-144 | capacity 2 holding a pending non-reference (POC 1) and a pending reference (POC 2): making room outputs only the non-reference and leaves the reference pending |
| `Scenarios.TieFreesSlotInSlotOrder` | sys/vdpau/h264/gsth264dpb.c:139-144 | capacity 2 holding a pending non-reference and a pending reference, both POC 1, the non-reference in the lower slot: making room outputs only the non-reference |
| `Scenarios.ShrinkTieOutputsEarlierSlot` | sys/vdpau/h264/gsth264dpb.c:241-242 | two pending POC-1 frames: shrinking the capacity from 2 to 1 outputs the one in the lower slot |
| `Scenarios.FlushDropsMaxPoc` | sys/vdpau/h264/gsth264dpb.c:170-177 | a pending frame with POC `G_MAXUINT` is dropped by a flush without being output |

## Left out

- Reference counting is not modelled (`gst_video_frame_ref`/`unref`, :76, :88, :175). Frames are values, and frames leaving the store are not logged. The direct output at :152 takes no reference, unlike :88; this difference is not modelled either.
- The GObject boilerplate is not modelled: type registration, `class_init`, `finalize`, debug logging, and the invalid-property warnings (:23-37, :223-225, :247-259, :268-282). From the parameter spec at :277-280 the model keeps only the range 0..16, as `SetNumRefFrames`'s precondition, and the default 16.
- `MAX_DPB_SIZE` is defined in `gsth264dpb.h`, which is not part of this model. It is taken as 16, the property's maximum and default.
- The output callback's own behaviour is left out. Only the fact and order of its calls are kept, as the output list.
- The surface handle that `GST_VDP_VIDEO_BUFFER` extracts (:50-52) is an opaque number on the frame. `VDP_INVALID_HANDLE` is an opaque constructor.
- The frame array is an unbounded sequence. The source stores frames in a fixed array. With more than 16 frames (possible after a failed shrink, see `Scenarios.ShrinkThenAddExceedsCapacity`) it would write past that array; the model just appends.
- Export.FillReferenceFrames: requires at most 16 stored frames. The source would write past the caller's 16 descriptors otherwise.
- Admission.AddKeepsCapacity: assumes the store starts within capacity. `add` itself does not restore the bound once it has been exceeded.
- The widths and signedness of the reference descriptor fields are not modelled. The descriptor type comes from the VDPAU header, which is not part of this model. The model copies the POC and `frame_num` into the descriptor unchanged.

=== FILE: add.dfy ===
/** Admission of a newly decoded frame into the picture buffer. */
module Admission {
  import opened Frames
  import opened Store
  import opened Bumping

  /** Every frame a room-making run outputs is a reference, except the last
      one of a successful run: outputting a non-reference frees a slot, and
      the run stops there. */
  predicate ReferencesUntilFreed(out: seq<Frame>, ok: bool)
  {
    forall i :: 0 <= i < |out| && (i + 1 < |out| || !ok) ==> out[i].isReference
  }

  lemma ReferenceFirst(x: Frame, rest: seq<Frame>, ok: bool)
    requires x.isReference && ReferencesUntilFreed(rest, ok)
    ensures ReferencesUntilFreed([x] + rest, ok)
  {
    var s := [x] + rest;
    forall i | 0 <= i < |s| && (i + 1 < |s| || !ok)
      ensures s[i].isReference
    {
      if i > 0 {
        assert s[i] == rest[i - 1];
      }
    }
  }

  /** The loop of a reference `add`: while the store is exactly full, bump
      unconditionally; fail once a bump fails. The store that results is
      returned in both cases, since frames output before the failure stay
      output. */
  function MakeRoom(d: Dpb): (r: Result)
    ensures r.dpb.maxFrames == d.maxFrames
    ensures |d.frames| != d.maxFrames ==> r == Result(true, d, [])
    ensures |r.dpb.frames| <= |d.frames|
    ensures r.ok <==> |r.dpb.frames| != d.maxFrames
    ensures !r.ok ==> forall j :: 0 <= j < |r.dpb.frames| ==> !IsDue(r.dpb.frames[j], MaxUint as int)
    ensures multiset(Pending(r.dpb.frames)) + multiset(r.out) == multiset(Pending(d.frames))
    ensures Settle(r.dpb.frames, MaxUint as int) == Settle(d.frames, MaxUint as int)
    ensures forall x :: x in r.out ==> x.poc < MaxUint
    ensures PocSorted(r.out) && PrecedesPending(r.out, r.dpb.frames)
    ensures |d.frames| == d.maxFrames && r.ok ==> |r.dpb.frames| + 1 == d.maxFrames
    ensures ReferencesUntilFreed(r.out, r.ok)
    ensures |r.out| <= |Due(d.frames, MaxUint as int)|
    ensures r.out == ByPoc(Due(d.frames, MaxUint as int))[..|r.out|]
    decreases |Pending(d.frames)|
  {
    if |d.frames| != d.maxFrames then
      ReleasedNothing(d.frames);
      Result(true, d, [])
    else
      var b := Bump(d, MaxUint);
      if !b.ok then
        BumpFailure(d, MaxUint);
        ReleasedNothing(d.frames);
        Result(false, d, [])
      else
        MaxBumpStep(d);
        var rest := MakeRoom(b.dpb);
        ReleasedStep(d, rest.out, rest.dpb.frames);
        if b.out[0].isReference then
          ReferenceFirst(b.out[0], rest.out, rest.ok);
          Result(rest.ok, rest.dpb, b.out + rest.out)
        else
          assert rest == Result(true, b.dpb, []);
          Result(rest.ok, rest.dpb, b.out + rest.out)
  }

  /** `gst_h264_dpb_add`. A reference frame is appended once `MakeRoom`
      succeeds. A non-reference frame is appended when there is a free slot;
      in a full store it is instead output straight away, after every
      pending frame with a smaller POC. */
  function Add(d: Dpb, f: Frame): (r: Result)
    ensures r.dpb.maxFrames == d.maxFrames
    ensures PocSorted(r.out)
    ensures f.isReference ==>
      var room := MakeRoom(d);
      && r.ok == room.ok && r.out == room.out
      && (r.ok ==> r.dpb.frames == room.dpb.frames + [f])
      && (!r.ok ==> r.dpb == room.dpb)
    ensures !f.isReference ==> r.ok
    ensures !f.isReference && |d.frames| == d.maxFrames ==>
      && |r.out| >= 1 && r.out[|r.out| - 1] == f
      && multiset(r.out[..|r.out| - 1]) == multiset(Due(d.frames, f.poc as int))
      && r.dpb.frames == Settle(d.frames, f.poc as int)
    ensures !f.isReference && |d.frames| != d.maxFrames ==>
      r.dpb.frames == d.frames + [f] && r.out == []
  {
    if f.isReference then
      var room := MakeRoom(d);
      if !room.ok then room
      else Result(true, room.dpb.(frames := room.dpb.frames + [f]), room.out)
    else if |d.frames| == d.maxFrames then
      var drained := Drain(d, f.poc);
      DrainBelow(d, f.poc);
      PocSortedSnoc(drained.out, f);
      assert (drained.out + [f])[..|drained.out|] == drained.out;
      Result(true, drained.dpb, drained.out + [f])
    else
      Result(true, d.(frames := d.frames + [f]), [])
  }

  lemma PocSortedSnoc(out: seq<Frame>, f: Frame)
    requires PocSorted(out)
    requires forall x :: x in out ==> x.poc < f.poc
    ensures PocSorted(out + [f])
  {
    var s := out + [f];
    forall i, j | 0 <= i < j < |s|
      ensures s[i].poc <= s[j].poc
    {
      assert s[i] == out[i];
      if j == |out| {
        assert out[i] in out;
      } else {
        assert s[j] == out[j];
      }
    }
  }

  /** The capacity invariant: `add` never takes a store that is within its
      capacity beyond it. */
  lemma AddKeepsCapacity(d: Dpb, f: Frame)
    requires |d.frames| <= d.maxFrames
    ensures |Add(d, f).dpb.frames| <= Add(d, f).dpb.maxFrames
  {
    if !f.isReference && |d.frames| == d.maxFrames {
      assert |Settle(d.frames, f.poc as int)| <= |d.frames|;
    }
  }

  /** Only a reference `add` fails, and only on a store left exactly full in
      which nothing is due below `G_MAXUINT`. */
  lemma AddFailsOnlyWhenSaturated(d: Dpb, f: Frame)
    requires !Add(d, f).ok
    ensures f.isReference
    ensures |Add(d, f).dpb.frames| == d.maxFrames
    ensures forall j :: 0 <= j < |Add(d, f).dpb.frames| ==>
      !IsDue(Add(d, f).dpb.frames[j], MaxUint as int)
  {
  }
}

=== FILE: bump.dfy ===
/** The bumping process: output of the pending frame with the smallest POC,
    and the loops that repeat it until it fails. */
module Bumping {
  import opened Frames
  import opened Store

  /** Slot `b` holds a pending frame whose POC is minimal among the pending
      frames of slots `0 .. n-1`, and no earlier pending frame has that POC. */
  predicate OldestPendingIn(fs: seq<Frame>, b: nat, n: nat)
  {
    && b < n <= |fs|
    && fs[b].outputNeeded
    && (forall j :: 0 <= j < n && fs[j].outputNeeded ==> fs[b].poc <= fs[j].poc)
    && (forall j :: 0 <= j < b && fs[j].outputNeeded ==> fs[b].poc < fs[j].poc)
  }

  /** The frame `bump` selects: minimal POC among the pending frames, the
      lowest slot on ties. */
  predicate IsOldestPending(fs: seq<Frame>, b: nat)
  {
    OldestPendingIn(fs, b, |fs|)
  }

  predicate HasPending(fs: seq<Frame>)
  {
    exists j :: 0 <= j < |fs| && fs[j].outputNeeded
  }

  /** The source's first loop: the first pending slot at or after `i`. */
  function FirstPending(fs: seq<Frame>, i: nat): (r: Option<nat>)
    requires i <= |fs|
    ensures r.None? ==> forall j :: i <= j < |fs| ==> !fs[j].outputNeeded
    ensures r.Some? ==>
      && i <= r.value < |fs|
      && fs[r.value].outputNeeded
      && forall j :: i <= j < r.value ==> !fs[j].outputNeeded
    decreases |fs| - i
  {
    if i == |fs| then None
    else if fs[i].outputNeeded then Some(i)
    else FirstPending(fs, i + 1)
  }

  /** The source's second loop: from slot `i` on, a pending frame replaces the
      current choice `b` only when its POC is strictly smaller. */
  function ScanOldest(fs: seq<Frame>, b: nat, i: nat): (r: nat)
    requires OldestPendingIn(fs, b, i)
    ensures IsOldestPending(fs, r)
    decreases |fs| - i
  {
    if i == |fs| then b
    else if fs[i].outputNeeded && fs[i].poc < fs[b].poc then ScanOldest(fs, i, i + 1)
    else ScanOldest(fs, b, i + 1)
  }

  /** The slot `bump` selects, or `None` when nothing awaits output. */
  function OldestPending(fs: seq<Frame>): (r: Option<nat>)
    ensures r.None? <==> !HasPending(fs)
    ensures r.Some? ==> IsOldestPending(fs, r.value)
  {
    match FirstPending(fs, 0)
    case None => None
    case Some(first) => Some(ScanOldest(fs, first, first + 1))
  }

  /** The selection rule picks at most one slot. */
  lemma OldestPendingUnique(fs: seq<Frame>, b1: nat, b2: nat)
    requires IsOldestPending(fs, b1) && IsOldestPending(fs, b2)
    ensures b1 == b2
  {
  }

  /** `gst_h264_dpb_bump`: outputs the oldest pending frame if its POC lies
      strictly below `poc`; otherwise fails and changes nothing. */
  function Bump(d: Dpb, poc: uint32): (r: Result)
    ensures r.dpb.maxFrames == d.maxFrames
    ensures !HasPending(d.frames) ==> !r.ok
    ensures OldestPending(d.frames).Some? ==>
      var b := OldestPending(d.frames).value;
      && (r.ok <==> d.frames[b].poc < poc)
      && (r.ok ==> r.out == [d.frames[b]] && r.dpb.frames == Output(d.frames, b))
    ensures !r.ok ==> r.dpb == d && r.out == []
  {
    match OldestPending(d.frames)
    case None => Result(false, d, [])
    case Some(b) =>
      if d.frames[b].poc < poc then Result(true, d.(frames := Output(d.frames, b)), [d.frames[b]])
      else Result(false, d, [])
  }

  /** The slot a successful bump outputs. */
  lemma BumpedSlot(d: Dpb, poc: uint32) returns (b: nat)
    requires Bump(d, poc).ok
    ensures IsOldestPending(d.frames, b) && d.frames[b].poc < poc
    ensures Bump(d, poc).out == [d.frames[b]]
    ensures Bump(d, poc).dpb.frames == Output(d.frames, b)
  {
    b := OldestPending(d.frames).value;
  }

  /** A successful bump moves one frame from the pending set to the sink, so
      the number of pending frames drops by exactly one; the store never grows. */
  lemma BumpLedger(d: Dpb, poc: uint32, t: int)
    requires Bump(d, poc).ok
    ensures multiset(Due(Bump(d, poc).dpb.frames, t)) + multiset(Due(Bump(d, poc).out, t))
         == multiset(Due(d.frames, t))
    ensures |Pending(Bump(d, poc).dpb.frames)| + 1 == |Pending(d.frames)|
    ensures |Bump(d, poc).dpb.frames| <= |d.frames|
    ensures |Bump(d, poc).out| == 1 && Bump(d, poc).out[0].outputNeeded
  {
    var b := BumpedSlot(d, poc);
    var fs := d.frames;
    OutputLedger(fs, b, t);
    OutputLedger(fs, b, PocRange);
    assert Due([fs[b]], PocRange) == [fs[b]];
    assert |multiset(Due(Output(fs, b), PocRange))| + 1 == |multiset(Due(fs, PocRange))|;
  }

  /** Every frame still pending after a successful bump has a POC at least that
      of the frame just output. */
  lemma BumpMonotone(d: Dpb, poc: uint32)
    requires Bump(d, poc).ok
    ensures forall x :: x in Bump(d, poc).dpb.frames && x.outputNeeded ==>
      Bump(d, poc).out[0].poc <= x.poc
  {
    var b := BumpedSlot(d, poc);
    forall x | x in Output(d.frames, b) && x.outputNeeded
      ensures d.frames[b].poc <= x.poc
    {
      OutputKeepsPending(d.frames, b, x);
      var k :| 0 <= k < |d.frames| && d.frames[k] == x;
    }
  }

  /** A frame output by a bump under `poc` is due under `poc`, so the bump
      does not change how the store settles under `poc`. */
  lemma BumpSettles(d: Dpb, poc: uint32)
    requires Bump(d, poc).ok
    ensures Settle(Bump(d, poc).dpb.frames, poc as int) == Settle(d.frames, poc as int)
  {
    var b := BumpedSlot(d, poc);
    OutputSettles(d.frames, b, poc as int);
  }

  /** A failed bump under `poc` means nothing pending lies below `poc`. */
  lemma BumpFailure(d: Dpb, poc: uint32)
    requires !Bump(d, poc).ok
    ensures forall j :: 0 <= j < |d.frames| ==> !IsDue(d.frames[j], poc as int)
  {
    match OldestPending(d.frames)
    case None =>
    case Some(b) =>
      assert d.frames[b].poc >= poc;
  }

  /** `while (gst_h264_dpb_bump (dpb, poc));`: every frame due under `t` is
      output exactly once, in non-decreasing POC order, and the store ends as
      `Settle` describes it. */
  function Drain(d: Dpb, t: uint32): (r: Effect)
    ensures r.dpb.maxFrames == d.maxFrames
    ensures r.dpb.frames == Settle(d.frames, t as int)
    ensures multiset(r.out) == multiset(Due(d.frames, t as int))
    ensures PocSorted(r.out)
    ensures forall j :: 0 <= j < |r.dpb.frames| ==> !IsDue(r.dpb.frames[j], t as int)
    ensures r.out == ByPoc(Due(d.frames, t as int))
    decreases |Pending(d.frames)|
  {
    var b := Bump(d, t);
    if !b.ok then
      BumpFailure(d, t);
      NothingDue(d.frames, t as int);
      Effect(d, [])
    else
      BumpLedger(d, t, t as int);
      BumpSettles(d, t);
      BumpOrder(d, t);
      var rest := Drain(b.dpb, t);
      ByPocSorts(Due(d.frames, t as int));
      Effect(rest.dpb, b.out + rest.out)
  }

  /** The step of every bump loop's sortedness: a frame whose POC bounds all
      pending frames of `fs` precedes any sorted run of those frames. */
  lemma HeadFirst(x: Frame, rest: seq<Frame>, fs: seq<Frame>)
    requires PocSorted(rest)
    requires forall y :: y in rest ==> y in fs && y.outputNeeded
    requires forall z :: z in fs && z.outputNeeded ==> x.poc <= z.poc
    ensures PocSorted([x] + rest)
  {
    PocSortedCons(x, rest);
  }

  /** Putting the frame a bump output in front of the outputs that followed
      keeps them sorted, keeps them ahead of every frame still pending, and
      keeps them below `G_MAXUINT`. */
  lemma HeadFirstPending(x: Frame, rest: seq<Frame>, after: seq<Frame>, mid: seq<Frame>)
    requires PocSorted(rest) && PrecedesPending(rest, after)
    requires multiset(Pending(after)) + multiset(rest) == multiset(Pending(mid))
    requires forall z :: z in mid && z.outputNeeded ==> x.poc <= z.poc
    requires x.poc < MaxUint && forall y :: y in rest ==> y.poc < MaxUint
    ensures PocSorted([x] + rest) && PrecedesPending([x] + rest, after)
    ensures forall y :: y in [x] + rest ==> y.poc < MaxUint
  {
    LedgerMembers(rest, after, mid);
    HeadFirst(x, rest, mid);
  }

  /** One successful unconditional bump (`bump (dpb, G_MAXUINT)`): it outputs
      one pending frame below `G_MAXUINT`, no later than any frame left
      pending, so one fewer frame is due below `G_MAXUINT` and the store
      still settles the same way. */
  lemma MaxBumpStep(d: Dpb)
    requires Bump(d, MaxUint).ok
    ensures var b := Bump(d, MaxUint);
      && b.out == [b.out[0]] && b.out[0].outputNeeded && b.out[0].poc < MaxUint
      && multiset(Pending(b.dpb.frames)) + multiset(b.out) == multiset(Pending(d.frames))
      && |Pending(b.dpb.frames)| + 1 == |Pending(d.frames)|
      && |Due(b.dpb.frames, MaxUint as int)| + 1 == |Due(d.frames, MaxUint as int)|
      && ByPoc(Due(d.frames, MaxUint as int)) == b.out + ByPoc(Due(b.dpb.frames, MaxUint as int))
      && Settle(b.dpb.frames, MaxUint as int) == Settle(d.frames, MaxUint as int)
      && |b.dpb.frames| <= |d.frames|
      && (b.out[0].isReference ==> |b.dpb.frames| == |d.frames|)
      && (!b.out[0].isReference ==> |b.dpb.frames| + 1 == |d.frames|)
      && forall z :: z in b.dpb.frames && z.outputNeeded ==> b.out[0].poc <= z.poc
  {
    var b := Bump(d, MaxUint);
    var m := MaxUint as int;
    var bs := BumpedSlot(d, MaxUint);
    BumpLedger(d, MaxUint, PocRange);
    BumpLedger(d, MaxUint, m);
    BumpMonotone(d, MaxUint);
    BumpSettles(d, MaxUint);
    BumpOrder(d, MaxUint);
    assert Due(b.out, PocRange) == b.out;
    assert Due(b.out, m) == b.out;
    assert |multiset(Due(b.dpb.frames, m))| + |multiset(b.out)| == |multiset(Due(d.frames, m))|;
  }

  /** A successful bump under `poc` outputs the head of the due frames in
      `ByPoc` order: equal POCs leave in slot order. */
  lemma BumpOrder(d: Dpb, poc: uint32)
    requires Bump(d, poc).ok
    ensures ByPoc(Due(d.frames, poc as int))
         == Bump(d, poc).out + ByPoc(Due(Bump(d, poc).dpb.frames, poc as int))
  {
    var fs, t := d.frames, poc as int;
    var bs := BumpedSlot(d, poc);
    OutputDue(fs, bs, t);
    OldestBounds(fs, bs, t);
    ByPocFirst(Due(fs[..bs], t), fs[bs], Due(fs[bs + 1..], t));
  }

  /** The frames due before the oldest pending slot have strictly larger
      POCs, and those due after it have POCs at least as large. */
  lemma OldestBounds(fs: seq<Frame>, b: nat, t: int)
    requires IsOldestPending(fs, b)
    ensures forall y :: y in Due(fs[..b], t) ==> fs[b].poc < y.poc
    ensures forall y :: y in Due(fs[b + 1..], t) ==> fs[b].poc <= y.poc
  {
    var a, c := fs[..b], fs[b + 1..];
    DueMember(a, t);
    DueMember(c, t);
    forall y | y in Due(a, t)
      ensures fs[b].poc < y.poc
    {
      var k :| 0 <= k < |a| && a[k] == y;
      assert fs[k] == y;
    }
    forall y | y in Due(c, t)
      ensures fs[b].poc <= y.poc
    {
      var k :| 0 <= k < |c| && c[k] == y;
      assert fs[b + 1 + k] == y;
    }
  }

  /** What a run of unconditional bumps from `before` can leave: the frames
      output left the pending frames, the store settles under `G_MAXUINT`
      as before, and the outputs are the first frames of the due ones in
      `ByPoc` order, none later than a frame still pending. */
  predicate Released(before: seq<Frame>, out: seq<Frame>, after: seq<Frame>)
  {
    && multiset(Pending(after)) + multiset(out) == multiset(Pending(before))
    && Settle(after, MaxUint as int) == Settle(before, MaxUint as int)
    && (forall x :: x in out ==> x.poc < MaxUint)
    && PocSorted(out) && PrecedesPending(out, after)
    && |out| <= |Due(before, MaxUint as int)|
    && out == ByPoc(Due(before, MaxUint as int))[..|out|]
  }

  /** No bump releases nothing. */
  lemma ReleasedNothing(fs: seq<Frame>)
    ensures Released(fs, [], fs)
  {
  }

  /** A successful unconditional bump followed by a run of them is a run. */
  lemma ReleasedStep(d: Dpb, out: seq<Frame>, after: seq<Frame>)
    requires Bump(d, MaxUint).ok
    requires Released(Bump(d, MaxUint).dpb.frames, out, after)
    ensures Released(d.frames, Bump(d, MaxUint).out + out, after)
    ensures |Bump(d, MaxUint).out + out| == |out| + 1
  {
    var b := Bump(d, MaxUint);
    MaxBumpStep(d);
    LedgerStep(b.out[0], out, d.frames, b.dpb.frames, after);
    HeadFirstPending(b.out[0], out, after, b.dpb.frames);
    PrefixCons(b.out[0], ByPoc(Due(b.dpb.frames, MaxUint as int)), out);
  }

  /** Pending ledgers chain: moving `x` out of `before` and then `rest` out of
      `mid` moves `[x] + rest` out of `before`. */
  lemma LedgerStep(x: Frame, rest: seq<Frame>, before: seq<Frame>, mid: seq<Frame>, after: seq<Frame>)
    requires multiset(Pending(mid)) + multiset([x]) == multiset(Pending(before))
    requires multiset(Pending(after)) + multiset(rest) == multiset(Pending(mid))
    ensures multiset(Pending(after)) + multiset([x] + rest) == multiset(Pending(before))
  {
  }

  /** A failed unconditional bump leaves nothing due below `G_MAXUINT`. */
  lemma MaxBumpFails(d: Dpb)
    requires !Bump(d, MaxUint).ok
    ensures Due(d.frames, MaxUint as int) == []
    ensures Settle(d.frames, MaxUint as int) == d.frames
  {
    BumpFailure(d, MaxUint);
    NothingDue(d.frames, MaxUint as int);
  }

  /** Every output of a drain under `t` lies strictly below `t`. */
  lemma DrainBelow(d: Dpb, t: uint32)
    ensures forall x :: x in Drain(d, t).out ==> x.poc < t
  {
    DueMember(d.frames, t as int);
    var out := Drain(d, t).out;
    assert multiset(out) == multiset(Due(d.frames, t as int));
    forall x | x in out
      ensures x.poc < t
    {
      assert x in multiset(out);
      assert x in Due(d.frames, t as int);
      assert IsDue(x, t as int);
    }
  }

  /** `gst_h264_dpb_flush`: with `output`, drain every frame below
      `G_MAXUINT`; then drop everything left, whatever its flags. */
  function Flush(d: Dpb, output: bool): (r: Effect)
    ensures r.dpb.frames == [] && r.dpb.maxFrames == d.maxFrames
    ensures !output ==> r.out == []
    ensures output ==> PocSorted(r.out) && multiset(r.out) == multiset(Due(d.frames, MaxUint as int))
    ensures output ==> r.out == ByPoc(Due(d.frames, MaxUint as int))
  {
    var out := if output then Drain(d, MaxUint).out else [];
    Effect(d.(frames := []), out)
  }
}

=== FILE: config.dfy ===
/** The `num-ref-frames` property (the store's capacity) and the store's
    initial state. */
module Config {
  import opened Frames
  import opened Store
  import opened Bumping

  /** `gst_h264_dpb_init`: an empty store with the default capacity. */
  function Init(): (r: Dpb)
    ensures |r.frames| == 0 && r.maxFrames == MaxDpbSize
  {
    Dpb([], MaxDpbSize)
  }

  function Min(a: int, b: int): int
  {
    if a <= b then a else b
  }

  /** `k` unconditional bump attempts whose results are ignored. Each
      successful attempt outputs the oldest pending frame below `G_MAXUINT`,
      so the attempts output the `k` oldest such frames, or all of them when
      there are fewer. */
  function BumpTimes(d: Dpb, k: nat): (r: Effect)
    ensures r.dpb.maxFrames == d.maxFrames
    ensures |r.dpb.frames| <= |d.frames|
    ensures |r.out| == Min(k, |Due(d.frames, MaxUint as int)|)
    ensures multiset(Pending(r.dpb.frames)) + multiset(r.out) == multiset(Pending(d.frames))
    ensures Settle(r.dpb.frames, MaxUint as int) == Settle(d.frames, MaxUint as int)
    ensures forall x :: x in r.out ==> x.poc < MaxUint
    ensures PocSorted(r.out) && PrecedesPending(r.out, r.dpb.frames)
    ensures r.out == ByPoc(Due(d.frames, MaxUint as int))[..|r.out|]
    decreases k
  {
    if k == 0 then
      ReleasedNothing(d.frames);
      Effect(d, [])
    else
      var b := Bump(d, MaxUint);
      if !b.ok then
        MaxBumpFails(d);
        BumpTimes(b.dpb, k - 1)
      else
        MaxBumpStep(d);
        var rest := BumpTimes(b.dpb, k - 1);
        ReleasedStep(d, rest.out, rest.dpb.frames);
        var n := |Due(d.frames, MaxUint as int)|;
        assert |rest.out| == Min(k - 1, n - 1);
        Effect(rest.dpb, b.out + rest.out)
  }

  /** The `PROP_NUM_REF_FRAMES` branch of `set_property`: the capacity becomes
      `v`, then the source makes one unconditional bump attempt per frame the
      old count exceeds `v` by. Those attempts output the oldest pending
      frames below `G_MAXUINT`, as many as there are attempts or all of them
      when there are fewer. The store never grows, but may stay above `v`
      when bumps fail or only clear output flags. */
  function SetNumRefFrames(d: Dpb, v: nat): (r: Effect)
    requires v <= MaxDpbSize
    ensures r.dpb.maxFrames == v
    ensures |d.frames| <= v ==> r == Effect(d.(maxFrames := v), [])
    ensures |r.dpb.frames| <= |d.frames|
    ensures |d.frames| > v ==> |r.out| == Min(|d.frames| - v, |Due(d.frames, MaxUint as int)|)
    ensures multiset(Pending(r.dpb.frames)) + multiset(r.out) == multiset(Pending(d.frames))
    ensures Settle(r.dpb.frames, MaxUint as int) == Settle(d.frames, MaxUint as int)
    ensures forall x :: x in r.out ==> x.poc < MaxUint
    ensures PocSorted(r.out) && PrecedesPending(r.out, r.dpb.frames)
    ensures r.out == ByPoc(Due(d.frames, MaxUint as int))[..|r.out|]
  {
    var attempts := if |d.frames| > v then |d.frames| - v else 0;
    BumpTimes(d.(maxFrames := v), attempts)
  }

  /** The `PROP_NUM_REF_FRAMES` branch of `get_property`. */
  function GetNumRefFrames(d: Dpb): nat
  {
    d.maxFrames
  }

  /** Reading the property back gives the value just written. */
  lemma GetAfterSet(d: Dpb, v: nat)
    requires v <= MaxDpbSize
    ensures GetNumRefFrames(SetNumRefFrames(d, v).dpb) == v
  {
  }
}

=== FILE: export.dfy ===
/** Export of the store as the hardware decoder's fixed array of reference
    frame descriptors. */
module Export {
  import opened Frames
  import opened Store

  /** The number of descriptors the decode call takes. */
  const RefSlots: nat := 16

  /** A descriptor's surface: a frame's handle or the invalid handle. */
  datatype SurfaceRef = Surface(handle: nat) | InvalidHandle

  /** One reference frame descriptor. The format has separate top and bottom
      field flags and POCs; frame-coded pictures set both halves alike. */
  datatype RefSlot = RefSlot(
    surface: SurfaceRef,
    isLongTerm: bool,
    topIsReference: bool,
    bottomIsReference: bool,
    fieldOrderCnt0: uint32,
    fieldOrderCnt1: uint32,
    frameIdx: uint32)

  /** The descriptor `s` describes the stored frame `f`. */
  predicate Describes(s: RefSlot, f: Frame)
  {
    && s.surface == Surface(f.surface)
    && s.isLongTerm == f.isLongTerm
    && s.topIsReference == f.isReference
    && s.bottomIsReference == f.isReference
    && s.fieldOrderCnt0 == f.poc
    && s.fieldOrderCnt1 == f.poc
    && s.frameIdx == f.frameNum
  }

  /** The descriptor `s` is marked unused: invalid surface, neither field a
      reference. Its other fields are whatever `before` held. */
  predicate Unused(s: RefSlot, before: RefSlot)
  {
    s == before.(surface := InvalidHandle, topIsReference := false, bottomIsReference := false)
  }

  /** `gst_h264_dpb_fill_reference_frames`: the caller's 16 descriptors
      `slots` are overwritten, slot `i` describing stored frame `i`, and every
      slot past the stored frames marked unused. The store itself is a value
      and so cannot change. */
  method FillReferenceFrames(d: Dpb, slots: seq<RefSlot>) returns (r: seq<RefSlot>)
    requires |slots| == RefSlots
    requires |d.frames| <= RefSlots
    ensures |r| == RefSlots
    ensures forall i :: 0 <= i < |d.frames| ==> Describes(r[i], d.frames[i])
    ensures forall i :: |d.frames| <= i < RefSlots ==> Unused(r[i], slots[i])
  {
    r := slots;
    var i := 0;
    while i < |d.frames|
      invariant i <= |d.frames|
      invariant |r| == RefSlots
      invariant forall j :: 0 <= j < i ==> Describes(r[j], d.frames[j])
      invariant forall j :: i <= j < RefSlots ==> r[j] == slots[j]
    {
      var f := d.frames[i];
      r := r[i := RefSlot(Surface(f.surface), f.isLongTerm, f.isReference, f.isReference, f.poc, f.poc, f.frameNum)];
      i := i + 1;
    }
    while i < RefSlots
      invariant |d.frames| <= i <= RefSlots
      invariant |r| == RefSlots
      invariant forall j :: 0 <= j < |d.frames| ==> Describes(r[j], d.frames[j])
      invariant forall j :: |d.frames| <= j < i ==> Unused(r[j], slots[j])
      invariant forall j :: i <= j < RefSlots ==> r[j] == slots[j]
    {
      r := r[i := r[i].(surface := InvalidHandle, topIsReference := false, bottomIsReference := false)];
      i := i + 1;
    }
  }
}

=== FILE: frames.dfy ===
/** Decoded H.264 frames as the picture buffer sees them, and the views of a
    frame sequence that the buffer's contracts are stated in. */
module Frames {

  /** The source's `guint`. */
  newtype uint32 = x: int | 0 <= x < 0x1_0000_0000

  /** `G_MAXUINT`: the threshold the source uses for an "unconditional" bump.
      The comparison is strict, so a frame whose POC is this value is never due. */
  const MaxUint: uint32 := 0xFFFF_FFFF

  /** One more than every POC: a threshold under which every frame is due. */
  const PocRange: int := 0x1_0000_0000

  datatype Option<T> = None | Some(value: T)

  /** A decoded frame. `id` stands for the identity of the frame object (its
      address in the source); `surface` is the opaque decoded-image handle. */
  datatype Frame = Frame(
    id: nat,
    surface: nat,
    isReference: bool,
    isLongTerm: bool,
    frameNum: uint32,
    poc: uint32,
    outputNeeded: bool)

  /** A frame that is still awaiting output and whose POC lies below `t`. */
  predicate IsDue(f: Frame, t: int)
  {
    f.outputNeeded && (f.poc as int) < t
  }

  /** The frames of `fs` that are due under `t`, in store order. */
  function Due(fs: seq<Frame>, t: int): (r: seq<Frame>)
    ensures |r| <= |fs|
  {
    if fs == [] then []
    else (if IsDue(fs[0], t) then [fs[0]] else []) + Due(fs[1..], t)
  }

  /** The due list holds exactly the due frames of the store. */
  lemma {:induction false} DueMember(fs: seq<Frame>, t: int)
    ensures forall x :: x in Due(fs, t) <==> x in fs && IsDue(x, t)
    decreases |fs|
  {
    if fs != [] {
      DueMember(fs[1..], t);
      assert fs == [fs[0]] + fs[1..];
    }
  }

  /** Every frame still awaiting output, whatever its POC. */
  function Pending(fs: seq<Frame>): seq<Frame>
  {
    Due(fs, PocRange)
  }

  /** What outputting one due frame leaves behind: a reference frame stays with
      its output flag cleared, any other frame leaves the store. */
  function SettleOne(f: Frame, t: int): seq<Frame>
  {
    if IsDue(f, t) then
      (if f.isReference then [f.(outputNeeded := false)] else [])
    else [f]
  }

  /** The store after every frame due under `t` has been output, described
      frame by frame: the survivors keep their relative order. */
  function Settle(fs: seq<Frame>, t: int): (r: seq<Frame>)
    ensures |r| <= |fs|
  {
    if fs == [] then [] else SettleOne(fs[0], t) + Settle(fs[1..], t)
  }

  /** Output order: POCs never decrease along the sequence. */
  predicate PocSorted(out: seq<Frame>)
  {
    forall i, j :: 0 <= i < j < |out| ==> out[i].poc <= out[j].poc
  }

  /** Every output frame's POC is at most that of every frame of `fs` still
      awaiting output: nothing left behind should have gone out first. */
  predicate PrecedesPending(out: seq<Frame>, fs: seq<Frame>)
  {
    forall x, y :: x in out && y in fs && y.outputNeeded ==> x.poc <= y.poc
  }

  lemma {:induction false} DueConcat(a: seq<Frame>, b: seq<Frame>, t: int)
    ensures Due(a + b, t) == Due(a, t) + Due(b, t)
    decreases |a|
  {
    if a == [] {
      assert a + b == b;
    } else {
      var h := (if IsDue(a[0], t) then [a[0]] else []);
      assert (a + b)[0] == a[0];
      assert (a + b)[1..] == a[1..] + b;
      assert Due(a + b, t) == h + Due(a[1..] + b, t);
      DueConcat(a[1..], b, t);
      assert h + (Due(a[1..], t) + Due(b, t)) == (h + Due(a[1..], t)) + Due(b, t);
    }
  }

  lemma {:induction false} SettleConcat(a: seq<Frame>, b: seq<Frame>, t: int)
    ensures Settle(a + b, t) == Settle(a, t) + Settle(b, t)
    decreases |a|
  {
    if a == [] {
      assert a + b == b;
    } else {
      var h := SettleOne(a[0], t);
      assert (a + b)[0] == a[0];
      assert (a + b)[1..] == a[1..] + b;
      assert Settle(a + b, t) == h + Settle(a[1..] + b, t);
      SettleConcat(a[1..], b, t);
      assert h + (Settle(a[1..], t) + Settle(b, t)) == (h + Settle(a[1..], t)) + Settle(b, t);
    }
  }

  lemma DueSplice(a: seq<Frame>, m: seq<Frame>, c: seq<Frame>, t: int)
    ensures Due(a + m + c, t) == Due(a, t) + Due(m, t) + Due(c, t)
  {
    DueConcat(a, m, t);
    DueConcat(a + m, c, t);
  }

  /** The due list around one due frame. */
  lemma DueAround(fs: seq<Frame>, idx: nat, t: int)
    requires idx < |fs| && IsDue(fs[idx], t)
    ensures Due(fs, t) == Due(fs[..idx], t) + [fs[idx]] + Due(fs[idx + 1..], t)
  {
    var a, x, c := fs[..idx], fs[idx], fs[idx + 1..];
    Split(fs, idx);
    assert Due([x], t) == [x];
    DueSplice(a, [x], c, t);
  }

  lemma SettleSplice(a: seq<Frame>, m: seq<Frame>, c: seq<Frame>, t: int)
    ensures Settle(a + m + c, t) == Settle(a, t) + Settle(m, t) + Settle(c, t)
  {
    SettleConcat(a, m, t);
    SettleConcat(a + m, c, t);
  }

  /** When nothing is due under `t`, the due list is empty and settling is the
      identity. */
  lemma {:induction false} NothingDue(fs: seq<Frame>, t: int)
    requires forall j :: 0 <= j < |fs| ==> !IsDue(fs[j], t)
    ensures Due(fs, t) == []
    ensures Settle(fs, t) == fs
    decreases |fs|
  {
    if fs != [] {
      NothingDue(fs[1..], t);
    }
  }

  /** Splitting a sequence around one position, for the concatenation lemmas. */
  lemma Split(fs: seq<Frame>, i: nat)
    requires i < |fs|
    ensures fs == fs[..i] + [fs[i]] + fs[i + 1..]
  {
  }

  /** A sequence holding the same frames as a due list holds only due frames
      of the store. */
  lemma DueMembers(out: seq<Frame>, fs: seq<Frame>, t: int)
    requires multiset(out) == multiset(Due(fs, t))
    ensures forall y :: y in out ==> y in fs && IsDue(y, t)
  {
    forall y | y in out
      ensures y in fs && IsDue(y, t)
    {
      assert y in multiset(Due(fs, t));
      DueMember(fs, t);
    }
  }

  /** A pending-frame ledger `after + out == before` puts every output frame
      among the pending frames of `before`. */
  lemma LedgerMembers(out: seq<Frame>, after: seq<Frame>, before: seq<Frame>)
    requires multiset(Pending(after)) + multiset(out) == multiset(Pending(before))
    ensures forall y :: y in out ==> y in before && y.outputNeeded
    ensures forall y :: y in after && y.outputNeeded ==> y in before
  {
    DueMember(before, PocRange);
    DueMember(after, PocRange);
    forall y | y in out
      ensures y in before && y.outputNeeded
    {
      assert y in multiset(Pending(before));
    }
    forall y | y in after && y.outputNeeded
      ensures y in before
    {
      assert IsDue(y, PocRange);
      assert y in multiset(Pending(after));
      assert y in multiset(Pending(before));
    }
  }

  lemma PocSortedCons(x: Frame, rest: seq<Frame>)
    requires PocSorted(rest)
    requires forall y :: y in rest ==> x.poc <= y.poc
    ensures PocSorted([x] + rest)
  {
    var s := [x] + rest;
    forall i, j | 0 <= i < j < |s|
      ensures s[i].poc <= s[j].poc
    {
      if i > 0 {
        assert s[i] == rest[i - 1] && s[j] == rest[j - 1];
      } else {
        assert s[j] == rest[j - 1];
        assert s[j] in rest;
      }
    }
  }

  /** Position `m` of `s` holds the first frame of minimal POC. */
  predicate FirstMinAt(s: seq<Frame>, m: nat)
  {
    && m < |s|
    && (forall j :: 0 <= j < m ==> s[m].poc < s[j].poc)
    && (forall j :: m < j < |s| ==> s[m].poc <= s[j].poc)
  }

  lemma FirstMinUnique(s: seq<Frame>, m1: nat, m2: nat)
    requires FirstMinAt(s, m1) && FirstMinAt(s, m2)
    ensures m1 == m2
  {
    var x1, x2 := s[m1], s[m2];
  }

  function FirstMin(s: seq<Frame>): (m: nat)
    requires s != []
    ensures FirstMinAt(s, m)
    decreases |s|
  {
    if |s| == 1 then 0
    else
      var t := s[1..];
      var m := FirstMin(t);
      assert forall j :: 0 <= j < |t| ==> t[j] == s[j + 1];
      if s[0].poc <= s[m + 1].poc then 0 else m + 1
  }

  /** The frames of `s` sorted by POC, frames of equal POC kept in their order
      in `s`: a stable selection sort. This is the order in which repeated
      bumping hands pending frames to the sink. */
  function ByPoc(s: seq<Frame>): (r: seq<Frame>)
    ensures |r| == |s|
    decreases |s|
  {
    if s == [] then []
    else
      var m := FirstMin(s);
      [s[m]] + ByPoc(s[..m] + s[m + 1..])
  }

  /** `ByPoc` sorts: its result is ordered by POC and holds the same frames. */
  lemma ByPocSorts(s: seq<Frame>)
    ensures PocSorted(ByPoc(s)) && multiset(ByPoc(s)) == multiset(s)
  {
    ByPocPermutes(s);
    ByPocOrdered(s);
  }

  lemma {:induction false} ByPocPermutes(s: seq<Frame>)
    ensures multiset(ByPoc(s)) == multiset(s)
    decreases |s|
  {
    if s != [] {
      var m := FirstMin(s);
      var s' := s[..m] + s[m + 1..];
      ByPocPermutes(s');
      assert ByPoc(s) == [s[m]] + ByPoc(s');
      Split(s, m);
      assert multiset(s) == multiset{s[m]} + multiset(s');
    }
  }

  lemma {:induction false} ByPocOrdered(s: seq<Frame>)
    ensures PocSorted(ByPoc(s))
    decreases |s|
  {
    if s != [] {
      var m := FirstMin(s);
      var s' := s[..m] + s[m + 1..];
      var rest := ByPoc(s');
      ByPocOrdered(s');
      ByPocPermutes(s');
      assert ByPoc(s) == [s[m]] + rest;
      FirstMinBelow(s, m);
      forall y | y in rest
        ensures s[m].poc <= y.poc
      {
        assert y in multiset(s');
      }
      PocSortedCons(s[m], rest);
    }
  }

  /** The first minimum is no higher than any frame left once it is taken
      out. */
  lemma FirstMinBelow(s: seq<Frame>, m: nat)
    requires FirstMinAt(s, m)
    ensures forall y :: y in s[..m] + s[m + 1..] ==> s[m].poc <= y.poc
  {
    var s' := s[..m] + s[m + 1..];
    forall y | y in s'
      ensures s[m].poc <= y.poc
    {
      var k :| 0 <= k < |s'| && s'[k] == y;
      if k < m {
        assert s'[k] == s[k];
      } else {
        assert s'[k] == s[k + 1];
      }
    }
  }

  /** A frame that is strictly below every frame before it and no higher than
      every frame after it comes first in `ByPoc`. */
  lemma ByPocFirst(a: seq<Frame>, x: Frame, c: seq<Frame>)
    requires forall y :: y in a ==> x.poc < y.poc
    requires forall y :: y in c ==> x.poc <= y.poc
    ensures ByPoc(a + [x] + c) == [x] + ByPoc(a + c)
  {
    var s := a + [x] + c;
    var m := |a|;
    forall j | 0 <= j < m
      ensures s[m].poc < s[j].poc
    {
      assert s[j] == a[j];
    }
    forall j | m < j < |s|
      ensures s[m].poc <= s[j].poc
    {
      assert s[j] == c[j - m - 1];
    }
    FirstMinUnique(s, m, FirstMin(s));
    assert s[..m] == a && s[m + 1..] == c;
  }

  /** Extending a prefix of `s` by a new head gives a prefix of `[x] + s`. */
  lemma PrefixCons(x: Frame, s: seq<Frame>, p: seq<Frame>)
    requires |p| <= |s| && p == s[..|p|]
    ensures [x] + p == ([x] + s)[..|p| + 1]
  {
  }
}

=== FILE: scenarios.dfy ===
/** Concrete runs of the picture buffer that pin down its tie-breaks and its
    edge cases. */
module Scenarios {
  import opened Frames
  import opened Store
  import opened Bumping
  import opened Admission
  import opened Sliding
  import opened Config

  function ShortTermRef(id: nat, frameNum: uint32): Frame
  {
    Frame(id, id, true, false, frameNum, 0, true)
  }

  /** A full store whose short-term references have `frame_num` 5, 2 and 9:
      the sliding window clears the reference flag of the one numbered 2 and
      nothing else. */
  lemma SlidingRetiresSmallestFrameNum()
    ensures
      var a, b, c := ShortTermRef(1, 5), ShortTermRef(2, 2), ShortTermRef(3, 9);
      MarkSliding(Dpb([a, b, c], 3)).frames == [a, b.(isReference := false), c]
  {
    var a, b, c := ShortTermRef(1, 5), ShortTermRef(2, 2), ShortTermRef(3, 9);
    var fs := [a, b, c];
    assert IsOldestShortTerm(fs, 1);
    var r := Retire(fs, 1);
    assert r == [a, b.(isReference := false), c];
  }

  function Pic(id: nat, isReference: bool, poc: uint32, outputNeeded: bool): Frame
  {
    Frame(id, id, isReference, false, 0, poc, outputNeeded)
  }

  /** Two pending frames share POC 7 in slots 0 and 3: a bump under 8 outputs
      the one in slot 0. */
  lemma BumpTieBreaksOnSlot()
    ensures
      var fs := [Pic(1, true, 7, true), Pic(2, true, 3, false), Pic(3, false, 9, true), Pic(4, true, 7, true)];
      Bump(Dpb(fs, 4), 8).ok && Bump(Dpb(fs, 4), 8).out == [fs[0]]
  {
    var fs := [Pic(1, true, 7, true), Pic(2, true, 3, false), Pic(3, false, 9, true), Pic(4, true, 7, true)];
    assert FirstPending(fs, 0) == Some(0);
    assert ScanOldest(fs, 0, 1) == 0;
    assert IsOldestPending(fs, 0);
  }

  /** Capacity 2 holding references A (POC 0) and B (POC 2), both pending; a
      non-reference C with POC 1 arrives. A is output and kept as a
      reference, B stays pending, and C is output straight after A without
      entering the store. */
  lemma NonReferenceIntoFullStore()
    ensures
      var a, b, c := Pic(1, true, 0, true), Pic(2, true, 2, true), Pic(3, false, 1, true);
      var d := Dpb([a, b], 2);
      && Add(d, c).ok
      && Add(d, c).out == [a, c]
      && Add(d, c).dpb == Dpb([a.(outputNeeded := false), b], 2)
  {
    var a, b, c := Pic(1, true, 0, true), Pic(2, true, 2, true), Pic(3, false, 1, true);
    DrainBeforeC(a, b);
    assert Add(Dpb([a, b], 2), c) == Result(true, Drain(Dpb([a, b], 2), 1).dpb, Drain(Dpb([a, b], 2), 1).out + [c]);
  }

  /** The drain inside that `add`: only A lies below C's POC. */
  lemma DrainBeforeC(a: Frame, b: Frame)
    requires a == Pic(1, true, 0, true) && b == Pic(2, true, 2, true)
    ensures Drain(Dpb([a, b], 2), 1) == Effect(Dpb([a.(outputNeeded := false), b], 2), [a])
  {
    assert Due([a, b], 1) == [a] by {
      assert Due([b], 1) == [];
      DueConcat([a], [b], 1);
      assert [a] + [b] == [a, b];
    }
    assert Settle([a, b], 1) == [a.(outputNeeded := false), b] by {
      assert Settle([b], 1) == [b];
      SettleConcat([a], [b], 1);
      assert [a] + [b] == [a, b];
    }
    var out := Drain(Dpb([a, b], 2), 1).out;
    SingletonMultiset(out, a);
  }

  lemma SingletonMultiset(s: seq<Frame>, x: Frame)
    requires multiset(s) == multiset{x}
    ensures s == [x]
  {
    assert |s| == 1;
    assert s[0] in multiset(s);
  }

  /** The store of the previous scenario is what two reference `add`s build
      from a fresh store whose capacity is set to 2. */
  lemma TwoReferencesFillStore()
    ensures
      var a, b := Pic(1, true, 0, true), Pic(2, true, 2, true);
      Add(Add(SetNumRefFrames(Init(), 2).dpb, a).dpb, b).dpb == Dpb([a, b], 2)
  {
    var a, b := Pic(1, true, 0, true), Pic(2, true, 2, true);
    var d0 := SetNumRefFrames(Init(), 2).dpb;
    assert d0 == Dpb([], 2);
    var d1 := Add(d0, a).dpb;
    assert d1 == Dpb([a], 2);
  }

  /** Two references that are already output fill a store of capacity 2.
      Lowering the capacity to 1 cannot bump either, so the store keeps both;
      because `add` only makes room when the count EQUALS the capacity, a
      further reference is then admitted, leaving three frames in a store of
      capacity 1. */
  lemma ShrinkThenAddExceedsCapacity()
    ensures
      var a, b, c := Pic(1, true, 0, false), Pic(2, true, 2, false), Pic(3, true, 4, true);
      var shrunk := SetNumRefFrames(Dpb([a, b], 2), 1).dpb;
      && shrunk == Dpb([a, b], 1)
      && Add(shrunk, c).ok
      && Add(shrunk, c).dpb == Dpb([a, b, c], 1)
  {
    var a, b := Pic(1, true, 0, false), Pic(2, true, 2, false);
    var d := Dpb([a, b], 1);
    assert !HasPending([a, b]);
    assert !Bump(d, MaxUint).ok;
    assert BumpTimes(d, 1) == BumpTimes(d, 0);
  }

  /** Capacity 2 holding pending references A (POC 5) and B (POC 1): making
      room outputs B and then A, keeps both in the store as references that
      no longer await output, and fails because the store is still full. */
  lemma ReferencesBlockRoom()
    ensures
      var a, b := Pic(1, true, 5, true), Pic(2, true, 1, true);
      var r := MakeRoom(Dpb([a, b], 2));
      && !r.ok && r.out == [b, a]
      && r.dpb == Dpb([a.(outputNeeded := false), b.(outputNeeded := false)], 2)
  {
    var a, b := Pic(1, true, 5, true), Pic(2, true, 1, true);
    var a', b' := a.(outputNeeded := false), b.(outputNeeded := false);
    var d1, d2 := Dpb([a, b'], 2), Dpb([a', b'], 2);
    FirstRoomBump(a, b);
    SecondRoomBump(a, b');
    assert !HasPending(d2.frames);
    assert MakeRoom(d2) == Result(false, d2, []);
    assert MakeRoom(d1) == Result(false, d2, [a]);
  }

  /** The first bump of that scenario outputs B, the smaller POC. */
  lemma FirstRoomBump(a: Frame, b: Frame)
    requires a == Pic(1, true, 5, true) && b == Pic(2, true, 1, true)
    ensures Bump(Dpb([a, b], 2), MaxUint) == Result(true, Dpb([a, b.(outputNeeded := false)], 2), [b])
  {
    var fs := [a, b];
    assert FirstPending(fs, 0) == Some(0);
    assert ScanOldest(fs, 0, 1) == 1;
    assert Output(fs, 1) == [a, b.(outputNeeded := false)];
  }

  /** The second bump outputs A, the only frame still pending. */
  lemma SecondRoomBump(a: Frame, b': Frame)
    requires a == Pic(1, true, 5, true) && b' == Pic(2, true, 1, false)
    ensures Bump(Dpb([a, b'], 2), MaxUint) == Result(true, Dpb([a.(outputNeeded := false), b'], 2), [a])
  {
    var fs := [a, b'];
    assert FirstPending(fs, 0) == Some(0);
    assert ScanOldest(fs, 0, 1) == 0;
    assert Output(fs, 0) == [a.(outputNeeded := false), b'];
  }

  /** Capacity 2 holding a pending non-reference A (POC 1) and a pending
      reference B (POC 2): making room outputs A, which frees its slot, and
      stops there, so B stays pending. */
  lemma NonReferenceFreesSlot()
    ensures
      var a, b := Pic(1, false, 1, true), Pic(2, true, 2, true);
      MakeRoom(Dpb([a, b], 2)) == Result(true, Dpb([b], 2), [a])
  {
    var a, b := Pic(1, false, 1, true), Pic(2, true, 2, true);
    FreeingBump(a, b);
    assert MakeRoom(Dpb([b], 2)) == Result(true, Dpb([b], 2), []);
  }

  /** The one bump of that scenario outputs and removes A. */
  lemma FreeingBump(a: Frame, b: Frame)
    requires a == Pic(1, false, 1, true) && b == Pic(2, true, 2, true)
    ensures Bump(Dpb([a, b], 2), MaxUint) == Result(true, Dpb([b], 2), [a])
  {
    var fs := [a, b];
    assert FirstPending(fs, 0) == Some(0);
    assert ScanOldest(fs, 0, 1) == 0;
    assert Output(fs, 0) == [b];
  }

  /** Capacity 2 holding pending non-references A and C, both POC 1: lowering
      the capacity to 1 makes one bump attempt, which outputs A, the earlier
      slot, and keeps C. */
  lemma ShrinkTieOutputsEarlierSlot()
    ensures
      var a, c := Pic(1, false, 1, true), Pic(3, false, 1, true);
      SetNumRefFrames(Dpb([a, c], 2), 1).out == [a]
  {
    var a, c := Pic(1, false, 1, true), Pic(3, false, 1, true);
    assert Due([a, c], MaxUint as int) == [a, c];
    assert FirstMin([a, c]) == 0;
    assert ByPoc([a, c])[..1] == [a];
  }

  /** Capacity 2 holding a pending non-reference A and a pending reference
      B with the same POC: making room outputs A, the earlier slot, and stops,
      so B stays pending. */
  lemma TieFreesSlotInSlotOrder()
    ensures
      var a, b := Pic(1, false, 1, true), Pic(2, true, 1, true);
      var r := MakeRoom(Dpb([a, b], 2));
      r.ok && r.out == [a]
  {
    var a, b := Pic(1, false, 1, true), Pic(2, true, 1, true);
    assert Due([a, b], MaxUint as int) == [a, b];
    assert FirstMin([a, b]) == 0;
    var r := MakeRoom(Dpb([a, b], 2));
    assert r.out == [a, b][..|r.out|];
  }

  /** A pending frame whose POC is `G_MAXUINT` is never output by a flush: it
      is dropped with the rest of the store. */
  lemma FlushDropsMaxPoc()
    ensures
      var a := Pic(1, false, MaxUint, true);
      Flush(Dpb([a], 4), true) == Effect(Dpb([], 4), [])
  {
    var a := Pic(1, false, MaxUint, true);
    assert Due([a], MaxUint as int) == [];
  }
}

=== FILE: sliding.dfy ===
/** Sliding-window reference marking: when the store is full, the short-term
    reference with the smallest `frame_num` stops being a reference. */
module Sliding {
  import opened Frames
  import opened Store

  predicate IsShortTermRef(f: Frame)
  {
    f.isReference && !f.isLongTerm
  }

  predicate HasShortTermRef(fs: seq<Frame>)
  {
    exists j :: 0 <= j < |fs| && IsShortTermRef(fs[j])
  }

  /** Slot `m` holds a short-term reference whose `frame_num` is minimal among
      the short-term references of slots `0 .. n-1`, and no earlier short-term
      reference has that `frame_num`. */
  predicate OldestShortTermIn(fs: seq<Frame>, m: nat, n: nat)
  {
    && m < |fs| && n <= |fs|
    && IsShortTermRef(fs[m])
    && (forall j :: 0 <= j < n && IsShortTermRef(fs[j]) ==> fs[m].frameNum <= fs[j].frameNum)
    && (forall j :: 0 <= j < m && IsShortTermRef(fs[j]) ==> fs[m].frameNum < fs[j].frameNum)
  }

  /** The frame the sliding window retires: minimal `frame_num` among the
      short-term references, the lowest slot on ties. */
  predicate IsOldestShortTerm(fs: seq<Frame>, m: nat)
  {
    OldestShortTermIn(fs, m, |fs|)
  }

  /** The source's first loop: the first short-term reference at or after `i`. */
  function FirstShortTerm(fs: seq<Frame>, i: nat): (r: Option<nat>)
    requires i <= |fs|
    ensures r.None? ==> forall j :: i <= j < |fs| ==> !IsShortTermRef(fs[j])
    ensures r.Some? ==>
      && i <= r.value < |fs|
      && IsShortTermRef(fs[r.value])
      && forall j :: i <= j < r.value ==> !IsShortTermRef(fs[j])
    decreases |fs| - i
  {
    if i == |fs| then None
    else if IsShortTermRef(fs[i]) then Some(i)
    else FirstShortTerm(fs, i + 1)
  }

  /** The source's second loop, which starts at the current choice itself: a
      short-term reference replaces the choice `m` only when its `frame_num`
      is strictly smaller. */
  function ScanSliding(fs: seq<Frame>, m: nat, i: nat): (r: nat)
    requires OldestShortTermIn(fs, m, i)
    ensures IsOldestShortTerm(fs, r)
    decreases |fs| - i
  {
    if i == |fs| then m
    else if IsShortTermRef(fs[i]) && fs[i].frameNum < fs[m].frameNum then ScanSliding(fs, i, i + 1)
    else ScanSliding(fs, m, i + 1)
  }

  /** The slot the sliding window retires, or `None` when no short-term
      reference exists. */
  function OldestShortTerm(fs: seq<Frame>): (r: Option<nat>)
    ensures r.None? <==> !HasShortTermRef(fs)
    ensures r.Some? ==> IsOldestShortTerm(fs, r.value)
  {
    match FirstShortTerm(fs, 0)
    case None => None
    case Some(first) => Some(ScanSliding(fs, first, first))
  }

  /** Slot `m` stops being a reference; a frame that no longer awaits output
      then leaves the store. */
  function Retire(fs: seq<Frame>, m: nat): (r: seq<Frame>)
    requires m < |fs|
    ensures fs[m].outputNeeded ==>
      |r| == |fs| && r[m] == fs[m].(isReference := false) &&
      forall j :: 0 <= j < |fs| && j != m ==> r[j] == fs[j]
    ensures !fs[m].outputNeeded ==> r == Remove(fs, m)
  {
    var cleared := fs[m := fs[m].(isReference := false)];
    if !fs[m].outputNeeded then Remove(fs, m) else cleared
  }

  /** `gst_h264_dpb_mark_sliding`. The source leaves its choice uninitialised
      when no short-term reference exists; here that case is an explicit
      no-op. */
  function MarkSliding(d: Dpb): (r: Dpb)
    ensures r.maxFrames == d.maxFrames
    ensures |d.frames| != d.maxFrames ==> r == d
    ensures !HasShortTermRef(d.frames) ==> r == d
    ensures |d.frames| == d.maxFrames ==>
      forall m: nat :: IsOldestShortTerm(d.frames, m) ==> r.frames == Retire(d.frames, m)
  {
    if |d.frames| != d.maxFrames then d
    else
      match OldestShortTerm(d.frames)
      case None => d
      case Some(m) => d.(frames := Retire(d.frames, m))
  }

  /** The number of short-term references in `fs`. */
  function CountShortTerm(fs: seq<Frame>): nat
  {
    if fs == [] then 0
    else (if IsShortTermRef(fs[0]) then 1 else 0) + CountShortTerm(fs[1..])
  }

  /** The frames marked long-term, in store order. */
  function LongTerm(fs: seq<Frame>): seq<Frame>
  {
    if fs == [] then []
    else (if fs[0].isLongTerm then [fs[0]] else []) + LongTerm(fs[1..])
  }

  lemma {:induction false} CountShortTermConcat(a: seq<Frame>, b: seq<Frame>)
    ensures CountShortTerm(a + b) == CountShortTerm(a) + CountShortTerm(b)
    decreases |a|
  {
    if a == [] {
      assert a + b == b;
    } else {
      var h := (if IsShortTermRef(a[0]) then 1 else 0);
      assert (a + b)[0] == a[0];
      assert (a + b)[1..] == a[1..] + b;
      assert CountShortTerm(a + b) == h + CountShortTerm(a[1..] + b);
      CountShortTermConcat(a[1..], b);
    }
  }

  lemma {:induction false} LongTermConcat(a: seq<Frame>, b: seq<Frame>)
    ensures LongTerm(a + b) == LongTerm(a) + LongTerm(b)
    decreases |a|
  {
    if a == [] {
      assert a + b == b;
    } else {
      var h := (if a[0].isLongTerm then [a[0]] else []);
      assert (a + b)[0] == a[0];
      assert (a + b)[1..] == a[1..] + b;
      assert LongTerm(a + b) == h + LongTerm(a[1..] + b);
      LongTermConcat(a[1..], b);
      assert h + (LongTerm(a[1..]) + LongTerm(b)) == (h + LongTerm(a[1..])) + LongTerm(b);
    }
  }

  lemma RetireShape(fs: seq<Frame>, m: nat)
    requires m < |fs|
    ensures Retire(fs, m) ==
      fs[..m] + (if fs[m].outputNeeded then [fs[m].(isReference := false)] else []) + fs[m + 1..]
  {
    var v := fs[m].(isReference := false);
    if fs[m].outputNeeded {
      var r := fs[..m] + [v] + fs[m + 1..];
      assert |r| == |fs|;
      forall j | 0 <= j < |fs|
        ensures r[j] == fs[m := v][j]
      {
        if j < m {
          assert r[j] == fs[j];
        } else if j > m {
          assert r[j] == fs[m + 1..][j - m - 1];
        }
      }
      assert r == fs[m := v];
    } else {
      assert fs[..m] + [] + fs[m + 1..] == fs[..m] + fs[m + 1..];
    }
  }

  /** When the window slides, exactly one short-term reference is retired and
      the long-term frames stay exactly as they were, in the same order. */
  lemma MarkSlidingRetiresOne(d: Dpb)
    requires |d.frames| == d.maxFrames && HasShortTermRef(d.frames)
    ensures CountShortTerm(MarkSliding(d).frames) + 1 == CountShortTerm(d.frames)
    ensures LongTerm(MarkSliding(d).frames) == LongTerm(d.frames)
  {
    var fs := d.frames;
    var m := OldestShortTerm(fs).value;
    var a, x, c := fs[..m], fs[m], fs[m + 1..];
    var mid := if x.outputNeeded then [x.(isReference := false)] else [];
    RetireShape(fs, m);
    Split(fs, m);
    assert MarkSliding(d).frames == a + mid + c;
    CountShortTermConcat(a, mid);
    CountShortTermConcat(a + mid, c);
    CountShortTermConcat(a, [x]);
    CountShortTermConcat(a + [x], c);
    assert CountShortTerm(mid) == 0 && CountShortTerm([x]) == 1;
    LongTermConcat(a, mid);
    LongTermConcat(a + mid, c);
    LongTermConcat(a, [x]);
    LongTermConcat(a + [x], c);
    assert LongTerm(mid) == [] && LongTerm([x]) == [];
  }

  /** The ids of the frames awaiting output. */
  function PendingIds(fs: seq<Frame>): set<nat>
  {
    set x | x in fs && x.outputNeeded :: x.id
  }

  /** Sliding the window never touches output: the same frames await output
      before and after. */
  lemma MarkSlidingKeepsPending(d: Dpb)
    ensures PendingIds(MarkSliding(d).frames) == PendingIds(d.frames)
  {
    if |d.frames| == d.maxFrames && HasShortTermRef(d.frames) {
      var fs := d.frames;
      var m := OldestShortTerm(fs).value;
      var r := MarkSliding(d).frames;
      RetireShape(fs, m);
      Split(fs, m);
      var a, x, c := fs[..m], fs[m], fs[m + 1..];
      var mid := if x.outputNeeded then [x.(isReference := false)] else [];
      assert r == a + mid + c;
      assert fs == a + [x] + c;
      assert PendingIds(mid) == PendingIds([x]);
      forall i | i in PendingIds(r)
        ensures i in PendingIds(fs)
      {
        var y :| y in r && y.outputNeeded && y.id == i;
        if y in mid {
          assert x in fs;
        } else {
          assert y in fs;
        }
      }
      forall i | i in PendingIds(fs)
        ensures i in PendingIds(r)
      {
        var y :| y in fs && y.outputNeeded && y.id == i;
        if y == x {
          assert mid[0] in r;
        } else {
          assert y in a || y in c;
          assert y in r;
        }
      }
    }
  }
}

=== FILE: store.dfy ===
/** The picture-buffer store: its frames in slot order and its capacity, with
    the two primitive transitions every release rule is built from. */
module Store {
  import opened Frames

  /** The largest capacity `num-ref-frames` accepts, and its default. */
  const MaxDpbSize: nat := 16

  /** `n_frames` is `|frames|`; slot order carries no meaning of its own. */
  datatype Dpb = Dpb(frames: seq<Frame>, maxFrames: nat)

  /** The outcome of an operation that reports success: the new store and the
      frames handed to the output sink, in call order. */
  datatype Result = Result(ok: bool, dpb: Dpb, out: seq<Frame>)

  /** The outcome of an operation without a status. */
  datatype Effect = Effect(dpb: Dpb, out: seq<Frame>)

  /** Drops slot `idx` and compacts the rest down by one place. */
  function Remove(fs: seq<Frame>, idx: nat): (r: seq<Frame>)
    requires idx < |fs|
    ensures |r| == |fs| - 1
    ensures forall j :: 0 <= j < idx ==> r[j] == fs[j]
    ensures forall j :: idx <= j < |r| ==> r[j] == fs[j + 1]
    ensures multiset(r) + multiset{fs[idx]} == multiset(fs)
  {
    Split(fs, idx);
    fs[..idx] + fs[idx + 1..]
  }

  /** The store after the frame at `idx` has been handed to the sink: its
      output flag is cleared, and it leaves the store unless it is a
      reference. */
  function Output(fs: seq<Frame>, idx: nat): (r: seq<Frame>)
    requires idx < |fs|
    ensures fs[idx].isReference ==>
      |r| == |fs| && r[idx] == fs[idx].(outputNeeded := false) &&
      forall j :: 0 <= j < |fs| && j != idx ==> r[j] == fs[j]
    ensures !fs[idx].isReference ==> r == Remove(fs, idx)
  {
    if fs[idx].isReference then fs[idx := fs[idx].(outputNeeded := false)]
    else Remove(fs, idx)
  }

  /** The output frame and its slot's replacement, side by side with the rest. */
  lemma OutputShape(fs: seq<Frame>, idx: nat)
    requires idx < |fs|
    ensures Output(fs, idx) ==
      fs[..idx] + (if fs[idx].isReference then [fs[idx].(outputNeeded := false)] else []) + fs[idx + 1..]
  {
    var a, c := fs[..idx], fs[idx + 1..];
    if fs[idx].isReference {
      var r, s := Output(fs, idx), a + [fs[idx].(outputNeeded := false)] + c;
      assert |s| == |r|;
      forall j | 0 <= j < |r|
        ensures r[j] == s[j]
      {
        if j < idx {
          assert s[j] == a[j];
        } else if j > idx {
          assert s[j] == c[j - idx - 1];
        }
      }
    } else {
      assert a + [] + c == a + c;
    }
  }

  /** Outputting a pending frame moves exactly that frame from the store's due
      list to the sink, whatever the threshold. */
  lemma OutputLedger(fs: seq<Frame>, idx: nat, t: int)
    requires idx < |fs| && fs[idx].outputNeeded
    ensures multiset(Due(Output(fs, idx), t)) + multiset(Due([fs[idx]], t))
         == multiset(Due(fs, t))
  {
    var a, x, c := fs[..idx], fs[idx], fs[idx + 1..];
    var mid := if x.isReference then [x.(outputNeeded := false)] else [];
    OutputShape(fs, idx);
    Split(fs, idx);
    assert Due(mid, t) == [];
    DueSplice(a, mid, c, t);
    DueSplice(a, [x], c, t);
  }

  /** Around a due frame, the due list splits into the due frames before it,
      the frame, and the due frames after it; outputting the frame leaves the
      two outer parts. */
  lemma OutputDue(fs: seq<Frame>, idx: nat, t: int)
    requires idx < |fs| && IsDue(fs[idx], t)
    ensures Due(fs, t) == Due(fs[..idx], t) + [fs[idx]] + Due(fs[idx + 1..], t)
    ensures Due(Output(fs, idx), t) == Due(fs[..idx], t) + Due(fs[idx + 1..], t)
  {
    var a, x, c := fs[..idx], fs[idx], fs[idx + 1..];
    DueAround(fs, idx, t);
    OutputShape(fs, idx);
    if x.isReference {
      var x' := x.(outputNeeded := false);
      assert Due([x'], t) == [];
      DueSplice(a, [x'], c, t);
    } else {
      assert Output(fs, idx) == a + c;
      DueConcat(a, c, t);
    }
  }

  /** Outputting a frame that is due under `t` does not change how the store
      settles under `t`. */
  lemma OutputSettles(fs: seq<Frame>, idx: nat, t: int)
    requires idx < |fs| && IsDue(fs[idx], t)
    ensures Settle(Output(fs, idx), t) == Settle(fs, t)
  {
    var a, x, c := fs[..idx], fs[idx], fs[idx + 1..];
    var mid := if x.isReference then [x.(outputNeeded := false)] else [];
    OutputShape(fs, idx);
    Split(fs, idx);
    assert Settle(mid, t) == mid;
    assert Settle([x], t) == mid;
    SettleSplice(a, mid, c, t);
    SettleSplice(a, [x], c, t);
  }

  /** Outputting leaves every frame of the store that stays pending in the
      store, so a bound on all pending POCs carries over. */
  lemma OutputKeepsPending(fs: seq<Frame>, idx: nat, x: Frame)
    requires idx < |fs|
    requires x in Output(fs, idx) && x.outputNeeded
    ensures x in fs
  {
    var r := Output(fs, idx);
    var k :| 0 <= k < |r| && r[k] == x;
    if fs[idx].isReference {
      assert k != idx;
    } else if k >= idx {
      assert r[k] == fs[k + 1];
    }
  }
}
